=== FILE: README.md ===
# Add Deal wizard and deals list — a Dafny model

This project models the decision logic of two screens of a CRM front end:

- **The Add Deal wizard** (`AddDealModal`). A two-step form collects customer details and then company details. Its state is a record of the current step, the eighteen form fields, an error map and a submitting flag. The model has one pure step function per event:
  - a field edit;
  - Next, guarded by step-1 validation;
  - Back, unconditional;
  - the submission, split into the part before the gateway call and the part after it.

  The district drop-downs are a function of the chosen state over a location table. The gateway's answer and the stored user record are inputs.
- **The associate's deals page** (`AssociateDeals`):
  - the case-insensitive search filter over name and deal code;
  - the numbered rows;
  - the status badge classifier;
  - the mapping of the list response onto page state;
  - the choice between spinner, error, empty notice and table;
  - the footer count.

Modules, leaf first:

- `Js`: absent values and the JavaScript falsiness behind `x || fallback`.
- `Text`: `trim`, `toLowerCase` and `includes`.
- `Location`: the state → district lookup.
- `DealForm`: fields, error map, validators.
- `DealWizard`: the wizard's state machine and payload.
- `DealWizardExamples`: concrete runs of the wizard.
- `DealsList`: the deals page.

What the code does, as modelled:

- **No dependent reset.** Choosing another state leaves the chosen district in the form, even when the new state does not offer it. Step-1 validation still accepts it.
- **Re-entrant submission.** Only the disabled Convert button prevents a second submission. `handleSubmit` does not consult the submitting flag (`ClickConvert` compared with `BeginSubmit`).
- **Default IDs.** A missing or falsy franchisee or employee id is silently replaced by 1 or 9.
- **No reset on success.** A successful submission calls the parent's callbacks but does not reset the wizard. Its form and step persist.
- **Sticky fetch error.** `fetchDeals` never clears the error. After one failure, a later successful fetch still displays the error.
- **Empty search hides nameless deals.** An empty search term hides deals that have neither a name nor a deal code. The footer counts all fetched deals, not the displayed rows.
- **Listed state without districts.** A state that is in the table but has an empty district list also gives no district options. So non-empty options imply a known state (`Location.NonEmptyDistrictsMeansKnownState`), but an empty list does not imply an unknown one.

## Model

| member | source | states |
|---|---|---|
| DealWizard.Initial | src/components/Modals/AddDealModal.jsx:9-35 | The wizard starts on step 1 with no errors and not submitting. Every field is empty except the two countries, which are "India". |
| Location.FindState | src/components/Modals/AddDealModal.jsx:41-43 | `find` returns the first entry whose name equals the state exactly, or nothing when no entry has that name. |
| Location.DistrictsFor | src/components/Modals/AddDealModal.jsx:39-59 | District options: none for an empty state, none for an unknown state, otherwise the districts of the first exact-name match. The customer and company drop-downs use the same rule. |
| Location.NonEmptyDistrictsMeansKnownState | src/components/Modals/AddDealModal.jsx:39-48 | Non-empty options imply a chosen state present in the table, and the options are that entry's districts. |
| DealWizard.HandleChange | src/components/Modals/AddDealModal.jsx:61-71 | The edited field takes the value and no other field changes. The field's error is removed only when its message is truthy; other error entries are kept unchanged. When all messages are non-empty, the entry is gone afterwards. |
| DealWizard.StaleDistrictSurvivesStateChange | src/components/Modals/AddDealModal.jsx:61-79 | Editing the state keeps the district. The options follow the new state, and step-1 validation raises no district error. |
| DealWizard.StaleCompanyDistrictSurvivesStateChange | src/components/Modals/AddDealModal.jsx:50-90 | Same for the company: editing the company state keeps the company district, and step-2 validation raises no error for it. |
| Text.TrimStartSpec | src/components/Modals/AddDealModal.jsx:75-77 | Trimming the start removes exactly the longest whitespace prefix. |
| Text.TrimEndSpec | src/components/Modals/AddDealModal.jsx:75-77 | Trimming the end removes exactly the longest whitespace suffix. |
| Text.TrimIsSlice | src/components/Modals/AddDealModal.jsx:75-77 | `trim` returns a contiguous slice of its input. Only whitespace is cut away, and the result neither starts nor ends with whitespace. |
| Text.BlankIffAllSpace | src/components/Modals/AddDealModal.jsx:75-77 | `!s.trim()` holds exactly when every character of `s` is whitespace. |
| DealWizardExamples.StartsWithTextNotBlank | src/components/Modals/AddDealModal.jsx:75-77 | A value whose first character is not whitespace passes the trimmed check. |
| DealForm.Validate | src/components/Modals/AddDealModal.jsx:73-94 | A fresh error map holds exactly the checked fields that are missing, each "Required", and never `api`. |
| DealForm.ValidateEmptyIff | src/components/Modals/AddDealModal.jsx:82-83 | Validation passes (no keys) exactly when none of the checked fields is missing. |
| DealForm.Step1CompleteIff | src/components/Modals/AddDealModal.jsx:75-80 | Step 1 is complete exactly when none of its six fields is missing. Name, mobile and email are checked trimmed; state, district and closure date are checked raw. |
| DealForm.ValidateStep1 | src/components/Modals/AddDealModal.jsx:73-84 | The new errors are exactly the missing step-1 fields, each "Required". Previous entries, `api` included, are dropped. The map is empty exactly when every step-1 field is filled. |
| DealForm.ValidateStep2 | src/components/Modals/AddDealModal.jsx:86-94 | The new errors are exactly the missing company fields: name trimmed, state and district raw. Step-1 entries and `api` are dropped. The map is empty exactly when every step-2 field is filled. |
| DealWizard.HandleNext | src/components/Modals/AddDealModal.jsx:96-100 | The step becomes 2 exactly when step 1 is complete and is otherwise unchanged. The errors are replaced by the step-1 result: exactly the missing step-1 fields, each "Required", with no `api` entry. This map is empty exactly when step 1 is complete. The form is untouched. |
| DealWizard.HandleBack | src/components/Modals/AddDealModal.jsx:102-104 | The step becomes 1; the form, errors and flag are kept. |
| DealWizard.BackThenNextIsNext | src/components/Modals/AddDealModal.jsx:96-104 | Going back and then forward yields the same errors as going forward directly. It also yields the same state when step 1 is complete. |
| DealWizardExamples.OnlyCustomerNameMissing | src/components/Modals/AddDealModal.jsx:73-84 | When only the customer name is missing, Next reports that field alone and stays on step 1. |
| DealWizardExamples.NextWithoutCustomerName | src/components/Modals/AddDealModal.jsx:96-100 | Concrete case: a filled-in step 1 with an empty name keeps step 1, and the only error is `customerName: Required`. |
| DealWizardExamples.CompleteStep1Advances | src/components/Modals/AddDealModal.jsx:96-100 | From the initial state, Next on a complete step 1 moves to step 2 with no errors. |
| DealWizardExamples.NextWithEverything | src/components/Modals/AddDealModal.jsx:96-100 | Concrete case: the same form with a name moves to step 2 with no errors. |
| Js.IdOr | src/components/Modals/AddDealModal.jsx:138-139 | `id \|\| n` keeps a truthy id and otherwise gives the number. With a non-zero fallback the result is truthy. |
| DealWizard.AssemblePayload | src/components/Modals/AddDealModal.jsx:111-141 | Every form field is copied into the payload, so the form can be read back from it unchanged. The lead id is 10 and all three `isAssociate` flags are set. A falsy or absent franchisee or employee id becomes 1 or 9. |
| DealWizard.BeginSubmit | src/components/Modals/AddDealModal.jsx:106-147 | A request is sent exactly when step 2 is complete, and the flag is raised only then. The request is the payload assembled from the form and the stored user (lead id 10, the `isAssociate` flags, ids defaulting to 1 and 9). A failed validation leaves the flag alone. The errors are replaced by the step-2 result: exactly the missing step-2 fields, each "Required", with no `api` entry. |
| Js.OrElse | src/components/Modals/AddDealModal.jsx:152-155 | `message \|\| fallback` is the message when it is truthy, else the fallback. It is never empty when the fallback is not. |
| DealWizard.FinishSubmit | src/components/Modals/AddDealModal.jsx:148-158 | Success calls `onSuccess` once (when given) and then `onClose` once, and nothing else. A rejection or a thrown error leaves `api` as the only error, with the gateway message or "Failed to create deal" / "An error occurred". The flag is false afterwards. The form and step never change. |
| DealWizard.HandleSubmit | src/components/Modals/AddDealModal.jsx:106-158 | An incomplete step 2 means no request, no callbacks and an untouched flag. The errors become the missing step-2 fields, each "Required", and any earlier `api` message is gone. Otherwise exactly one request is sent: the payload assembled from the form and the stored user. Its answer decides the rest. Success calls `onSuccess` once (when given) and then `onClose` once. A rejection leaves only `api: message \|\| "Failed to create deal"`. A thrown error leaves only `api: message \|\| "An error occurred"`. Neither failure calls any callback. The flag ends false and the form is never altered. |
| DealWizardExamples.RejectionShowsMessage | src/components/Modals/AddDealModal.jsx:148-153 | When the gateway rejects a complete step 2 with a non-empty message, that message under `api` is the only error, and the form is kept. |
| DealWizardExamples.DuplicateRejection | src/components/Modals/AddDealModal.jsx:151-153 | Concrete case: a rejection with message "duplicate" shows exactly that message and keeps the form. |
| DealWizard.ClickConvert | src/components/Modals/AddDealModal.jsx:472-479 | While submitting, the disabled button makes a click a no-op. Otherwise a click is `handleSubmit`'s part before the gateway call, which sends a request exactly when step 2 is complete. |
| DealWizard.SubmitIsNotReentrancySafe | src/components/Modals/AddDealModal.jsx:106-109 | `handleSubmit` entered while submitting still sends a second request. Only the disabled button blocks it. |
| Text.LowerIsIdempotent | src/pages/associate/AssociateDeals.jsx:46 | Lower-casing leaves no upper-case ASCII letter, and lower-casing twice changes nothing. |
| Text.ContainsIffOccurs | src/pages/associate/AssociateDeals.jsx:148-149 | The `includes` scan succeeds exactly when the term occurs at some position of the text. |
| Text.ContainsEmpty | src/pages/associate/AssociateDeals.jsx:148-149 | Every string includes the empty string. |
| DealsList.Filter | src/pages/associate/AssociateDeals.jsx:147-150 | A deal is displayed exactly when its lowered name or lowered deal code contains the lowered term. An absent field never matches. |
| DealsList.FilterIsOrderedSubsequence | src/pages/associate/AssociateDeals.jsx:147-150 | The displayed deals are picked out of the fetched ones at strictly increasing positions. The positions are exactly those of the matching deals. |
| DealsList.FilterKeepsAllIff | src/pages/associate/AssociateDeals.jsx:147-149 | The filter returns the list unchanged exactly when every deal matches. |
| DealsList.EmptyTermMatches | src/pages/associate/AssociateDeals.jsx:148-149 | With an empty term, a deal matches exactly when it has a name or a deal code. |
| DealsList.EmptyTermShowsNamedDeals | src/pages/associate/AssociateDeals.jsx:147-149 | An empty search shows every deal exactly when every deal has a name or a deal code. A deal with neither stays hidden. |
| DealsList.NumberRows | src/pages/associate/AssociateDeals.jsx:150-152 | One row per displayed deal, in order. |
| DealsList.SerialsAreConsecutive | src/pages/associate/AssociateDeals.jsx:150-152 | Serial numbers over the filtered list start at 1, rise by one, and end at the number of rows. |
| DealsList.StatusColorOf | src/pages/associate/AssociateDeals.jsx:45-53 | The badge class is chosen by the first of hot, won, warm, cold, overdue found in the lowered status. Otherwise, or with no status, it is the neutral class. |
| DealsList.StatusColorIgnoresCase | src/pages/associate/AssociateDeals.jsx:46 | The class depends on the status only up to ASCII case. |
| DealsList.HotOutranksWon | src/pages/associate/AssociateDeals.jsx:47-48 | "Hot Won" gets the hot class. |
| DealsList.InitialPage | src/pages/associate/AssociateDeals.jsx:10-12 | The page starts with no deals, loading, and no error. |
| DealsList.FetchDeals | src/pages/associate/AssociateDeals.jsx:15-35 | Success replaces the deals (absent data gives none) and leaves the error alone. A rejection sets its message or "Failed to fetch deals"; a thrown error sets "An error occurred while fetching deals". Both failures keep the deals. Loading is off afterwards, and a set error stays set. |
| DealsList.ErrorIsNeverCleared | src/pages/associate/AssociateDeals.jsx:24-31 | Once an error is set, no sequence of later fetches clears it. |
| DealsList.View | src/pages/associate/AssociateDeals.jsx:111-150 | The table body shows the spinner while loading. Otherwise it shows the error when set, else the empty notice when nothing was fetched, else the numbered rows of the filtered deals. The error row carries the stored error message. |
| DealsList.ErrorOutranksLaterSuccess | src/pages/associate/AssociateDeals.jsx:120 | After a failed fetch, a later successful fetch still displays the error. |
| DealsList.FooterCountsUnfilteredDeals | src/pages/associate/AssociateDeals.jsx:209-212 | The footer shows the number of fetched deals. This is never below the number of displayed rows, and above it whenever the search hides a deal. |

## Left out

- HTTP transport: the gateway calls (`convertToDeal`, `listDeals`) are reduced to their possible answers (`ConvertResponse`, `ListResponse`). The filters sent to `listDeals` are not modelled.
- Storage: `getSecureItem("user")` becomes an optional `StoredUser` input.
- Location data: the contents of `statesAndDistricts.json` are not part of this model; the table is a parameter.
- Rendering: JSX, animations, `console.log`, the `isOpen` early return, and the React effect scheduling. The district options are derived from the form instead of being stored.
- Display formatting: date-fns formatting of closure dates, the `en-IN` currency formatting, the `|| "--"` fallbacks, and the probability input.
- Buttons without logic: the Filters, Create Quote, Edit and Delete buttons have no handlers in the source.
- `handleDealSuccess`: its refresh is `FetchDeals` applied again. Effects and async interleavings are not modelled beyond the split of submission into `BeginSubmit` and `FinishSubmit`.
- `CustomerDetailView.jsx`: it renders and routes only, and is not part of this model.
- Text.Lower: lower-cases ASCII letters only. Full Unicode case mapping (`toLowerCase` on non-ASCII letters) is not modelled.
- DealsList.Filter: a non-string `name` or `DealCode` (which would throw a TypeError in the source) is not representable. Fields are absent or strings.
- DealsList.StatusColorOf: a non-string status (which would throw in the source) is not representable.
- DealWizard.AssemblePayload: ids read from storage are absent, numbers or strings. Other JavaScript values (booleans, NaN, objects) are not modelled.
- DealsList.View: a search term that is not a string is not representable.
- The rendered class strings of the badge are kept in `DealsList.ClassName`. That the six strings are distinct is not proved.

=== FILE: deal_form.dfy ===
/**
 The data of the Add Deal wizard: its eighteen form fields, the error map
 shown next to them, and the two per-step validators.
 */
module DealForm {
  import opened Text

  /** The form's fields, customer details first, then company details. */
  datatype Field =
    | CustomerName | Mobile | Email | Country | Pincode | State | District
    | PreferredLanguage | FollowupNote | ClosureDate
    | CompanyName | CompanyGST | CompanyMobile | CompanyEmail | CompanyCountry
    | CompanyState | CompanyDistrict | CompanyPreferredLanguage

  /**
   The form object always holds a value for every field. (The field list is
   spelled out so that the verifier can check it against a map display.)
   */
  predicate Complete(m: map<Field, string>)
  {
    forall f: Field ::
      (|| f.CustomerName? || f.Mobile? || f.Email? || f.Country? || f.Pincode? || f.State?
       || f.District? || f.PreferredLanguage? || f.FollowupNote? || f.ClosureDate?
       || f.CompanyName? || f.CompanyGST? || f.CompanyMobile? || f.CompanyEmail?
       || f.CompanyCountry? || f.CompanyState? || f.CompanyDistrict?
       || f.CompanyPreferredLanguage?) ==> f in m
  }

  /** The initial form: every field empty except the two countries. */
  function InitialValues(): map<Field, string>
  {
    map[
      CustomerName := "", Mobile := "", Email := "", Country := "India",
      Pincode := "", State := "", District := "", PreferredLanguage := "",
      FollowupNote := "", ClosureDate := "",
      CompanyName := "", CompanyGST := "", CompanyMobile := "", CompanyEmail := "",
      CompanyCountry := "India", CompanyState := "", CompanyDistrict := "",
      CompanyPreferredLanguage := ""
    ]
  }

  type FormData = m: map<Field, string> | Complete(m) witness InitialValues()

  /** Keys of the error map: one per field, plus the submission error `api`. */
  datatype ErrorKey = On(field: Field) | Api

  type Errors = map<ErrorKey, string>

  const Required: string := "Required"

  /** The fields whose value is trimmed before the emptiness test (the text inputs). */
  predicate TrimmedOnCheck(f: Field)
  {
    f.CustomerName? || f.Mobile? || f.Email? || f.CompanyName?
  }

  /** The check a validator applies to one field: trimmed text inputs, raw selections. */
  predicate Missing(form: FormData, f: Field)
  {
    if TrimmedOnCheck(f) then IsBlank(form[f]) else form[f] == ""
  }

  /**
   Runs the checks for `fields` in order on a fresh error map, recording
   "Required" for every missing one.
   */
  function Validate(fields: seq<Field>, form: FormData): (errs: Errors)
    ensures forall f :: On(f) in errs <==> f in fields && Missing(form, f)
    ensures Api !in errs
    ensures forall k :: k in errs ==> errs[k] == Required
    decreases |fields|
  {
    if fields == [] then map[]
    else
      var f := fields[|fields| - 1];
      var earlier := Validate(fields[..|fields| - 1], form);
      if Missing(form, f) then earlier[On(f) := Required] else earlier
  }

  /** Validation passes exactly when none of the checked fields is missing. */
  lemma ValidateEmptyIff(fields: seq<Field>, form: FormData)
    ensures Validate(fields, form) == map[] <==> forall f :: f in fields ==> !Missing(form, f)
  {
    var errs := Validate(fields, form);
    assert forall k :: k in errs ==> k == On(k.field);
    if !forall f :: f in fields ==> !Missing(form, f) {
      var f :| f in fields && Missing(form, f);
      assert On(f) in errs;
    }
  }

  /** The fields step 1 checks. */
  predicate InStep1(f: Field)
  {
    f.CustomerName? || f.Mobile? || f.Email? || f.State? || f.District? || f.ClosureDate?
  }

  /** The fields step 2 checks. */
  predicate InStep2(f: Field)
  {
    f.CompanyName? || f.CompanyState? || f.CompanyDistrict?
  }

  /** Every step-1 requirement holds, spelled out field by field. */
  predicate Step1Complete(form: FormData)
  {
    && !IsBlank(form[CustomerName])
    && !IsBlank(form[Mobile])
    && !IsBlank(form[Email])
    && form[State] != ""
    && form[District] != ""
    && form[ClosureDate] != ""
  }

  /** Step 1 is complete exactly when no step-1 field is missing. */
  lemma Step1CompleteIff(form: FormData)
    ensures Step1Complete(form) <==> forall f :: InStep1(f) ==> !Missing(form, f)
  {
    if Step1Complete(form) {
      forall f | InStep1(f)
        ensures !Missing(form, f)
      {
        match f
        case CustomerName =>
        case Mobile =>
        case Email =>
        case State =>
        case District =>
        case ClosureDate =>
      }
    }
    if forall f :: InStep1(f) ==> !Missing(form, f) {
      assert !Missing(form, CustomerName) && !Missing(form, Mobile) && !Missing(form, Email);
      assert !Missing(form, State) && !Missing(form, District) && !Missing(form, ClosureDate);
    }
  }

  /** Every step-2 requirement holds, spelled out field by field. */
  predicate Step2Complete(form: FormData)
  {
    && !IsBlank(form[CompanyName])
    && form[CompanyState] != ""
    && form[CompanyDistrict] != ""
  }

  /**
   `validateStep1`: the new error map has exactly the missing step-1 fields,
   each marked "Required", and nothing else (earlier entries, `api`
   included, are discarded). It is empty exactly when step 1 is complete.
   */
  function ValidateStep1(form: FormData): (errs: Errors)
    ensures forall f :: On(f) in errs <==> InStep1(f) && Missing(form, f)
    ensures Api !in errs
    ensures forall k :: k in errs ==> errs[k] == Required
    ensures errs == map[] <==> Step1Complete(form)
  {
    var fields := [CustomerName, Mobile, Email, State, District, ClosureDate];
    assert forall f :: f in fields <==> InStep1(f);
    ValidateEmptyIff(fields, form);
    Step1CompleteIff(form);
    Validate(fields, form)
  }

  /**
   `validateStep2`: the new error map has exactly the missing step-2 fields,
   each marked "Required"; step-1 entries and `api` are dropped. It is
   empty exactly when step 2 is complete.
   */
  function ValidateStep2(form: FormData): (errs: Errors)
    ensures forall f :: On(f) in errs <==> InStep2(f) && Missing(form, f)
    ensures Api !in errs
    ensures forall k :: k in errs ==> errs[k] == Required
    ensures errs == map[] <==> Step2Complete(form)
  {
    var fields := [CompanyName, CompanyState, CompanyDistrict];
    assert forall f :: f in fields <==> InStep2(f);
    assert (forall f :: f in fields ==> !Missing(form, f)) <==>
      (!Missing(form, CompanyName) && !Missing(form, CompanyState) && !Missing(form, CompanyDistrict));
    ValidateEmptyIff(fields, form);
    Validate(fields, form)
  }
}

=== FILE: deal_wizard.dfy ===
/**
 The two-step Add Deal wizard as a state machine: a record of the current
 step, the form, the error map and the submitting flag, with one step
 function per user event. The gateway's answer and the stored user are
 inputs to the step functions rather than effects.
 */
module DealWizard {
  import opened Js
  import opened Text
  import Location
  import opened DealForm

  /** The wizard shows step 1 (customer) or step 2 (company). */
  type Step = n: int | n == 1 || n == 2 witness 1

  datatype Wizard = Wizard(step: Step, form: FormData, errors: Errors, isSubmitting: bool)

  /** The state of a freshly mounted wizard. */
  function Initial(): (w: Wizard)
    ensures w.step == 1 && w.errors == map[] && !w.isSubmitting
    ensures forall f :: w.form[f] == (if f == Country || f == CompanyCountry then "India" else "")
  {
    Wizard(1, InitialValues(), map[], false)
  }

  /** Every message in the error map is non-empty, so every entry is displayed. */
  predicate MessagesShown(w: Wizard)
  {
    forall k :: k in w.errors ==> w.errors[k] != ""
  }

  /** The customer district drop-down's options, derived from the chosen state. */
  function AvailableDistricts(table: Location.LocationTable, w: Wizard): seq<Location.District>
  {
    Location.DistrictsFor(table, w.form[State])
  }

  /** The company district drop-down's options, derived from the company state. */
  function AvailableCompanyDistricts(table: Location.LocationTable, w: Wizard): seq<Location.District>
  {
    Location.DistrictsFor(table, w.form[CompanyState])
  }

  /**
   `handleChange`: the edited field takes the new value and nothing else in
   the form moves; its error entry is removed when it holds a (truthy)
   message, and every other error entry stays as it was.
   */
  function HandleChange(w: Wizard, f: Field, v: string): (r: Wizard)
    ensures r.form[f] == v
    ensures forall g :: g != f ==> r.form[g] == w.form[g]
    ensures forall k :: k != On(f) ==> (k in r.errors <==> k in w.errors)
    ensures forall k :: k in r.errors ==> k in w.errors && r.errors[k] == w.errors[k]
    ensures On(f) in r.errors <==> On(f) in w.errors && w.errors[On(f)] == ""
    ensures MessagesShown(w) ==> MessagesShown(r) && On(f) !in r.errors
    ensures r.step == w.step && r.isSubmitting == w.isSubmitting
  {
    var errors := if On(f) in w.errors && w.errors[On(f)] != "" then w.errors - {On(f)} else w.errors;
    w.(form := w.form[f := v], errors := errors)
  }

  /**
   `handleNext`: step-1 validation replaces the error map; the wizard moves
   to step 2 exactly when step 1 is complete and otherwise stays put.
   */
  function HandleNext(w: Wizard): (r: Wizard)
    ensures r.step == (if Step1Complete(w.form) then 2 else w.step)
    ensures forall f :: On(f) in r.errors <==> InStep1(f) && Missing(w.form, f)
    ensures Api !in r.errors && MessagesShown(r)
    ensures forall k :: k in r.errors ==> r.errors[k] == Required
    ensures r.errors == map[] <==> Step1Complete(w.form)
    ensures r.form == w.form && r.isSubmitting == w.isSubmitting
  {
    var errs := ValidateStep1(w.form);
    w.(step := if errs == map[] then 2 else w.step, errors := errs)
  }

  /** `handleBack`: return to step 1 unconditionally; the form and the errors are kept. */
  function HandleBack(w: Wizard): (r: Wizard)
    ensures r.step == 1
    ensures r.form == w.form && r.errors == w.errors && r.isSubmitting == w.isSubmitting
  {
    w.(step := 1)
  }

  /** The user record read from storage; absent when nothing is stored. */
  datatype StoredUser = StoredUser(franchiseeId: IdValue, employeeId: IdValue)

  datatype CustomerPayload = CustomerPayload(
    name: string, mobile: string, email: string, country: string, pincode: string,
    state: string, district: string, preferredLanguage: string, followupNote: string,
    closureDate: string, isAssociate: bool)

  datatype CompanyPayload = CompanyPayload(
    name: string, gst: string, mobile: string, email: string, country: string,
    state: string, district: string, preferredLanguage: string, isAssociate: bool)

  /** The body sent to the convert-to-deal endpoint. */
  datatype Payload = Payload(
    leadId: int, customer: CustomerPayload, company: CompanyPayload,
    franchiseeId: IdValue, employeeId: IdValue, isAssociate: bool)

  const DefaultLeadId: int := 10
  const DefaultFranchiseeId: int := 1
  const DefaultEmployeeId: int := 9

  /** The form as it can be read back from a payload: the inverse of the copying. */
  function FormOf(p: Payload): (r: FormData)
  {
    map[
      CustomerName := p.customer.name, Mobile := p.customer.mobile,
      Email := p.customer.email, Country := p.customer.country,
      Pincode := p.customer.pincode, State := p.customer.state,
      District := p.customer.district, PreferredLanguage := p.customer.preferredLanguage,
      FollowupNote := p.customer.followupNote, ClosureDate := p.customer.closureDate,
      CompanyName := p.company.name, CompanyGST := p.company.gst,
      CompanyMobile := p.company.mobile, CompanyEmail := p.company.email,
      CompanyCountry := p.company.country, CompanyState := p.company.state,
      CompanyDistrict := p.company.district,
      CompanyPreferredLanguage := p.company.preferredLanguage
    ]
  }

  /** The stored identifier, or `Absent` when no user record is stored (`user || {}`). */
  function FranchiseeOf(user: Option<StoredUser>): (r: IdValue)
  {
    if user.Some? then user.value.franchiseeId else Absent
  }

  function EmployeeOf(user: Option<StoredUser>): (r: IdValue)
  {
    if user.Some? then user.value.employeeId else Absent
  }

  /**
   The payload `handleSubmit` builds: every form field is copied into the
   customer or company part (so the form can be read back unchanged), the
   lead id is 10, all three `isAssociate` flags are set, and a falsy or
   absent franchisee or employee id is silently replaced by 1 or 9.
   */
  function AssemblePayload(form: FormData, user: Option<StoredUser>): (p: Payload)
    ensures FormOf(p) == form
    ensures p.leadId == 10
    ensures p.isAssociate && p.customer.isAssociate && p.company.isAssociate
    ensures p.franchiseeId.IsTruthy() && p.employeeId.IsTruthy()
    ensures FranchiseeOf(user).IsTruthy() ==> p.franchiseeId == FranchiseeOf(user)
    ensures !FranchiseeOf(user).IsTruthy() ==> p.franchiseeId == Num(1)
    ensures EmployeeOf(user).IsTruthy() ==> p.employeeId == EmployeeOf(user)
    ensures !EmployeeOf(user).IsTruthy() ==> p.employeeId == Num(9)
  {
    var customer := CustomerPayload(
      form[CustomerName], form[Mobile], form[Email], form[Country], form[Pincode],
      form[State], form[District], form[PreferredLanguage], form[FollowupNote],
      form[ClosureDate], true);
    var company := CompanyPayload(
      form[CompanyName], form[CompanyGST], form[CompanyMobile], form[CompanyEmail],
      form[CompanyCountry], form[CompanyState], form[CompanyDistrict],
      form[CompanyPreferredLanguage], true);
    Payload(DefaultLeadId, customer, company,
            IdOr(FranchiseeOf(user), DefaultFranchiseeId),
            IdOr(EmployeeOf(user), DefaultEmployeeId), true)
  }

  /**
   What the convert-to-deal call produced: a response with a truthy
   `success`, a response without it (with an optional message), or a thrown
   error (with the optional `response.data.message`).
   */
  datatype ConvertResponse = Converted | Rejected(message: Option<string>) | Threw(message: Option<string>)

  /** The parent callbacks the wizard invokes, in order. */
  datatype Callback = NotifySuccess | Close

  const CreateFailed: string := "Failed to create deal"
  const CreateCrashed: string := "An error occurred"

  /** The state after the synchronous part of `handleSubmit`, and the request it sends, if any. */
  datatype Begun = Begun(state: Wizard, request: Option<Payload>)

  /**
   The part of `handleSubmit` before the gateway call: step-2 validation
   replaces the error map; when it fails nothing is sent and the submitting
   flag is left alone, otherwise the flag is raised and the payload is sent.
   The flag's previous value is not consulted.
   */
  function BeginSubmit(w: Wizard, user: Option<StoredUser>): (r: Begun)
    ensures r.request.Some? <==> Step2Complete(w.form)
    ensures r.request.Some? ==> r.state.isSubmitting && r.request.value == AssemblePayload(w.form, user)
    ensures r.request.None? ==> r.state.isSubmitting == w.isSubmitting
    ensures forall f :: On(f) in r.state.errors <==> InStep2(f) && Missing(w.form, f)
    ensures Api !in r.state.errors && MessagesShown(r.state)
    ensures forall k :: k in r.state.errors ==> r.state.errors[k] == Required
    ensures r.state.form == w.form && r.state.step == w.step
  {
    var errs := ValidateStep2(w.form);
    if errs != map[] then
      Begun(w.(errors := errs), None)
    else
      Begun(w.(errors := errs, isSubmitting := true), Some(AssemblePayload(w.form, user)))
  }

  /** The state after the gateway answered, and the callbacks invoked. */
  datatype Finished = Finished(state: Wizard, callbacks: seq<Callback>)

  /**
   The part of `handleSubmit` after the gateway call. Success notifies the
   parent (when it passed `onSuccess`) and then closes; a rejection or a
   thrown error leaves `api` as the only error, with the gateway's message
   when it is truthy and a fixed fallback otherwise. The submitting flag is
   lowered on every path, and the form and step are never touched.
   */
  function FinishSubmit(w: Wizard, response: ConvertResponse, hasOnSuccess: bool): (r: Finished)
    ensures !r.state.isSubmitting
    ensures r.state.form == w.form && r.state.step == w.step
    ensures MessagesShown(w) ==> MessagesShown(r.state)
    ensures response.Converted? ==> r.state.errors == w.errors
    ensures response.Converted? ==> r.callbacks == (if hasOnSuccess then [NotifySuccess] else []) + [Close]
    ensures NotifySuccess in r.callbacks <==> response.Converted? && hasOnSuccess
    ensures Close in r.callbacks <==> response.Converted?
    ensures !response.Converted? ==> r.state.errors.Keys == {Api}
    ensures response.Rejected? ==>
              if Truthy(response.message) then Some(r.state.errors[Api]) == response.message
              else r.state.errors[Api] == CreateFailed
    ensures response.Threw? ==>
              if Truthy(response.message) then Some(r.state.errors[Api]) == response.message
              else r.state.errors[Api] == CreateCrashed
  {
    match response
    case Converted =>
      Finished(w.(isSubmitting := false), if hasOnSuccess then [NotifySuccess, Close] else [Close])
    case Rejected(message) =>
      Finished(w.(errors := map[Api := OrElse(message, CreateFailed)], isSubmitting := false), [])
    case Threw(message) =>
      Finished(w.(errors := map[Api := OrElse(message, CreateCrashed)], isSubmitting := false), [])
  }

  /** Everything one `handleSubmit` call does, with the await collapsed. */
  datatype Submitted = Submitted(state: Wizard, request: Option<Payload>, callbacks: seq<Callback>)

  /**
   `handleSubmit` from click to `finally`: no request and no callback when
   step 2 is incomplete (the flag untouched); otherwise exactly one request
   whose answer decides the error map and the callbacks, and the flag is
   lowered at the end.
   */
  function HandleSubmit(w: Wizard, user: Option<StoredUser>, response: ConvertResponse,
                        hasOnSuccess: bool): (r: Submitted)
    ensures r.request.None? <==> !Step2Complete(w.form)
    ensures r.request.None? ==> r.callbacks == [] && r.state.isSubmitting == w.isSubmitting
    ensures r.request.None? ==> forall f :: On(f) in r.state.errors <==> InStep2(f) && Missing(w.form, f)
    ensures r.request.None? ==> Api !in r.state.errors
    ensures r.request.None? ==> forall k :: k in r.state.errors ==> r.state.errors[k] == Required
    ensures r.request.Some? ==> !r.state.isSubmitting && r.request.value == AssemblePayload(w.form, user)
    ensures r.request.Some? && response.Converted? ==> r.state.errors == map[]
    ensures r.request.Some? && !response.Converted? ==> r.state.errors.Keys == {Api}
    ensures r.request.Some? && response.Rejected? ==>
              r.state.errors == map[Api := OrElse(response.message, CreateFailed)]
    ensures r.request.Some? && response.Threw? ==>
              r.state.errors == map[Api := OrElse(response.message, CreateCrashed)]
    ensures r.request.Some? && response.Converted? ==>
              r.callbacks == (if hasOnSuccess then [NotifySuccess] else []) + [Close]
    ensures !(r.request.Some? && response.Converted?) ==> r.callbacks == []
    ensures Close in r.callbacks <==> r.request.Some? && response.Converted?
    ensures r.state.form == w.form && r.state.step == w.step && MessagesShown(r.state)
  {
    var begun := BeginSubmit(w, user);
    if begun.request.None? then
      Submitted(begun.state, None, [])
    else
      var finished := FinishSubmit(begun.state, response, hasOnSuccess);
      Submitted(finished.state, begun.request, finished.callbacks)
  }

  /**
   A click on the Convert button: the button is disabled while a submission
   is in flight, which is the only guard against a second request.
   */
  function ClickConvert(w: Wizard, user: Option<StoredUser>): (r: Begun)
    ensures w.isSubmitting ==> r.state == w && r.request.None?
    ensures !w.isSubmitting ==> (r.request.Some? <==> Step2Complete(w.form))
    ensures !w.isSubmitting ==> r == BeginSubmit(w, user)
  {
    if w.isSubmitting then Begun(w, None) else BeginSubmit(w, user)
  }

  /**
   `handleSubmit` itself does not look at the submitting flag: entered
   while a request is in flight, it sends a second one.
   */
  lemma SubmitIsNotReentrancySafe(w: Wizard, user: Option<StoredUser>)
    requires w.isSubmitting && Step2Complete(w.form)
    ensures BeginSubmit(w, user).request.Some?
    ensures ClickConvert(w, user).request.None?
  {
  }

  /**
   Choosing another state leaves the chosen district alone, even when the new
   state does not offer it, and step-1 validation still accepts it.
   */
  lemma StaleDistrictSurvivesStateChange(table: Location.LocationTable, w: Wizard, v: string)
    requires w.form[District] != ""
    ensures HandleChange(w, State, v).form[District] == w.form[District]
    ensures AvailableDistricts(table, HandleChange(w, State, v)) == Location.DistrictsFor(table, v)
    ensures On(District) !in HandleNext(HandleChange(w, State, v)).errors
  {
    var changed := HandleChange(w, State, v);
    assert changed.form[District] == w.form[District];
    assert !Missing(changed.form, District);
  }

  /** The same holds for the company's state and district. */
  lemma StaleCompanyDistrictSurvivesStateChange(table: Location.LocationTable, w: Wizard, v: string)
    requires w.form[CompanyDistrict] != ""
    ensures HandleChange(w, CompanyState, v).form[CompanyDistrict] == w.form[CompanyDistrict]
    ensures AvailableCompanyDistricts(table, HandleChange(w, CompanyState, v)) == Location.DistrictsFor(table, v)
    ensures On(CompanyDistrict) !in BeginSubmit(HandleChange(w, CompanyState, v), None).state.errors
  {
  }

  /** Going back and then forward again validates the same form to the same errors. */
  lemma BackThenNextIsNext(w: Wizard)
    ensures HandleNext(HandleBack(w)).errors == HandleNext(w).errors
    ensures HandleNext(HandleBack(w)).form == w.form
    ensures Step1Complete(w.form) ==> HandleNext(HandleBack(w)) == HandleNext(w)
  {
  }
}

=== FILE: deal_wizard_examples.dfy ===
/**
 Concrete runs of the Add Deal wizard: a step 1 filled in as a user would,
 with and without the customer name, and a rejected submission.
 */
module DealWizardExamples {
  import opened Js
  import opened Text
  import opened DealForm
  import opened DealWizard

  /** Step 1 as a user fills it in, with the given customer name. */
  function FilledStep1(name: string): FormData
  {
    map[
      CustomerName := name, Mobile := "9999999999", Email := "a@b.com", Country := "India",
      Pincode := "", State := "Kerala", District := "Ernakulam", PreferredLanguage := "",
      FollowupNote := "", ClosureDate := "2024-01-01",
      CompanyName := "", CompanyGST := "", CompanyMobile := "", CompanyEmail := "",
      CompanyCountry := "India", CompanyState := "", CompanyDistrict := "",
      CompanyPreferredLanguage := ""
    ]
  }

  /**
   When the customer name is the only missing step-1 field, Next reports it
   as the only error and stays on step 1.
   */
  lemma OnlyCustomerNameMissing(form: FormData)
    requires Missing(form, CustomerName)
    requires !Missing(form, Mobile) && !Missing(form, Email)
    requires !Missing(form, State) && !Missing(form, District) && !Missing(form, ClosureDate)
    ensures HandleNext(Initial().(form := form)).step == 1
    ensures HandleNext(Initial().(form := form)).errors == map[On(CustomerName) := Required]
  {
    var errs := ValidateStep1(form);
    forall k | k in errs
      ensures k == On(CustomerName)
    {
      assert k.On? && InStep1(k.field);
    }
    assert errs == map[On(CustomerName) := Required];
  }

  /** A string that starts with a non-whitespace character is not blank. */
  lemma StartsWithTextNotBlank(s: string)
    requires s != [] && !IsSpace(s[0])
    ensures !IsBlank(s)
  {
    BlankIffAllSpace(s);
  }

  /** The filled-in fields of `FilledStep1` pass their checks, whatever the name. */
  lemma FilledStep1OtherFieldsPresent(name: string)
    ensures !Missing(FilledStep1(name), Mobile) && !Missing(FilledStep1(name), Email)
    ensures !Missing(FilledStep1(name), State) && !Missing(FilledStep1(name), District)
    ensures !Missing(FilledStep1(name), ClosureDate)
    ensures FilledStep1(name)[CustomerName] == name
  {
    var form := FilledStep1(name);
    assert form[Mobile] == "9999999999" && form[Email] == "a@b.com";
    StartsWithTextNotBlank("9999999999");
    StartsWithTextNotBlank("a@b.com");
  }

  /** With only the customer name empty, Next reports just that field and stays on step 1. */
  lemma NextWithoutCustomerName()
    ensures HandleNext(Initial().(form := FilledStep1(""))).step == 1
    ensures HandleNext(Initial().(form := FilledStep1(""))).errors == map[On(CustomerName) := Required]
  {
    FilledStep1OtherFieldsPresent("");
    assert Trim("") == "";
    OnlyCustomerNameMissing(FilledStep1(""));
  }

  /** A complete step 1 takes Next to step 2 with no errors. */
  lemma CompleteStep1Advances(form: FormData)
    requires Step1Complete(form)
    ensures HandleNext(Initial().(form := form)).step == 2
    ensures HandleNext(Initial().(form := form)).errors == map[]
  {
  }

  /** With the customer name filled in as well, Next moves to step 2 with no errors. */
  lemma NextWithEverything()
    ensures HandleNext(Initial().(form := FilledStep1("Acme"))).step == 2
    ensures HandleNext(Initial().(form := FilledStep1("Acme"))).errors == map[]
  {
    FilledStep1OtherFieldsPresent("Acme");
    StartsWithTextNotBlank("Acme");
    CompleteStep1Advances(FilledStep1("Acme"));
  }

  /**
   A rejected submission with a non-empty message shows exactly that
   message, under `api`, and leaves the form as it was.
   */
  lemma RejectionShowsMessage(w: Wizard, user: Option<StoredUser>, message: string, hasOnSuccess: bool)
    requires Step2Complete(w.form) && message != ""
    ensures HandleSubmit(w, user, Rejected(Some(message)), hasOnSuccess).state.errors == map[Api := message]
    ensures HandleSubmit(w, user, Rejected(Some(message)), hasOnSuccess).state.form == w.form
  {
    var begun := BeginSubmit(w, user);
    var finished := FinishSubmit(begun.state, Rejected(Some(message)), hasOnSuccess);
    assert finished.state.errors == map[Api := message];
  }

  /** A rejection with message "duplicate" shows that message alone and keeps every entry. */
  lemma DuplicateRejection(w: Wizard, user: Option<StoredUser>, hasOnSuccess: bool)
    requires Step2Complete(w.form)
    ensures HandleSubmit(w, user, Rejected(Some("duplicate")), hasOnSuccess).state.errors
            == map[Api := "duplicate"]
    ensures HandleSubmit(w, user, Rejected(Some("duplicate")), hasOnSuccess).state.form == w.form
  {
    RejectionShowsMessage(w, user, "duplicate", hasOnSuccess);
  }
}

=== FILE: deals_list.dfy ===
/**
 The associate's deals page: the search filter over the fetched deals, the
 numbered rows, the status badge colour, the handling of the list
 response, and which of loading / error / empty / table is displayed.
 */
module DealsList {
  import opened Js
  import opened Text

  /** The parts of a deal record that the page's logic reads. */
  datatype Deal = Deal(id: int, name: Option<string>, dealCode: Option<string>, status: Option<string>)

  /** `field?.toLowerCase().includes(term.toLowerCase())`: an absent field never matches. */
  predicate FieldMatches(field: Option<string>, term: string)
  {
    field.Some? && Contains(Lower(field.value), Lower(term))
  }

  /** The search predicate: the term occurs in the name or in the deal code, ignoring case. */
  predicate Matches(d: Deal, term: string)
  {
    FieldMatches(d.name, term) || FieldMatches(d.dealCode, term)
  }

  /**
   `deals.filter(...)`: the matching deals, in their original order. A deal
   is kept exactly when it matches.
   */
  function Filter(deals: seq<Deal>, term: string): (shown: seq<Deal>)
    ensures |shown| <= |deals|
    ensures forall d :: d in shown <==> d in deals && Matches(d, term)
    decreases |deals|
  {
    if deals == [] then []
    else
      var last := deals[|deals| - 1];
      Filter(deals[..|deals| - 1], term) + (if Matches(last, term) then [last] else [])
  }

  /**
   `positions` picks `shown` out of `deals` in increasing order: `shown` is an
   order-preserving subsequence of `deals`.
   */
  predicate PicksOut(shown: seq<Deal>, deals: seq<Deal>, positions: seq<nat>)
  {
    && |positions| == |shown|
    && (forall i :: 0 <= i < |positions| ==> positions[i] < |deals| && deals[positions[i]] == shown[i])
    && (forall i, j :: 0 <= i < j < |positions| ==> positions[i] < positions[j])
  }

  /**
   The filter keeps exactly the matching positions, in increasing order: the
   displayed rows are the matching deals, each once, in the fetched order.
   */
  lemma {:induction false} FilterIsOrderedSubsequence(deals: seq<Deal>, term: string)
    returns (positions: seq<nat>)
    ensures PicksOut(Filter(deals, term), deals, positions)
    ensures forall j :: 0 <= j < |deals| ==> (j in positions <==> Matches(deals[j], term))
    decreases |deals|
  {
    if deals == [] {
      positions := [];
    } else {
      var n := |deals| - 1;
      var front := deals[..n];
      var earlier := FilterIsOrderedSubsequence(front, term);
      var shown := Filter(deals, term);
      var shownFront := Filter(front, term);
      assert forall j :: 0 <= j < n ==> deals[j] == front[j];
      assert forall k :: 0 <= k < |earlier| ==> earlier[k] < n;
      if Matches(deals[n], term) {
        positions := earlier + [n];
        assert shown == shownFront + [deals[n]];
        assert forall k :: 0 <= k < |earlier| ==> positions[k] == earlier[k];
      } else {
        positions := earlier;
        assert shown == shownFront;
      }
      MatchingPositionsExtend(deals, term, earlier, positions);
    }
  }

  /**
   Extending the matching positions of `deals`' front by its last position,
   when that deal matches, gives the matching positions of all of `deals`.
   */
  lemma MatchingPositionsExtend(deals: seq<Deal>, term: string, earlier: seq<nat>, positions: seq<nat>)
    requires |deals| > 0
    requires forall j :: 0 <= j < |deals| - 1 ==> (j in earlier <==> Matches(deals[j], term))
    requires forall k :: 0 <= k < |earlier| ==> earlier[k] < |deals| - 1
    requires positions == if Matches(deals[|deals| - 1], term) then earlier + [|deals| - 1] else earlier
    ensures forall j :: 0 <= j < |deals| ==> (j in positions <==> Matches(deals[j], term))
  {
    var n := |deals| - 1;
    forall j | 0 <= j < |deals|
      ensures j in positions <==> Matches(deals[j], term)
    {
      if j < n {
        assert j in positions <==> j in earlier;
      } else {
        assert n !in earlier;
      }
    }
  }

  /** The filter returns its input unchanged exactly when every deal matches. */
  lemma {:induction false} FilterKeepsAllIff(deals: seq<Deal>, term: string)
    ensures Filter(deals, term) == deals <==> forall i :: 0 <= i < |deals| ==> Matches(deals[i], term)
    decreases |deals|
  {
    if deals != [] {
      var n := |deals| - 1;
      var front := deals[..n];
      FilterKeepsAllIff(front, term);
      assert deals == front + [deals[n]];
      assert forall i :: 0 <= i < n ==> deals[i] == front[i];
      if Filter(deals, term) == deals {
        assert |Filter(front, term)| <= n;
        assert Matches(deals[n], term);
        assert Filter(deals, term) == Filter(front, term) + [deals[n]];
        assert Filter(front, term) == front;
      }
    }
  }

  /** An empty search term keeps exactly the deals that have a name or a deal code. */
  lemma EmptyTermMatches(d: Deal)
    ensures Matches(d, "") <==> d.name.Some? || d.dealCode.Some?
  {
    if d.name.Some? {
      ContainsEmpty(Lower(d.name.value));
    }
    if d.dealCode.Some? {
      ContainsEmpty(Lower(d.dealCode.value));
    }
  }

  /**
   With an empty search term every deal is shown exactly when every deal has
   a name or a deal code; a deal with neither stays hidden.
   */
  lemma EmptyTermShowsNamedDeals(deals: seq<Deal>)
    ensures Filter(deals, "") == deals <==> forall i :: 0 <= i < |deals| ==> deals[i].name.Some? || deals[i].dealCode.Some?
  {
    FilterKeepsAllIff(deals, "");
    forall i | 0 <= i < |deals| {
      EmptyTermMatches(deals[i]);
    }
  }

  /** A table row: the serial number shown in the first column and the deal. */
  datatype Row = Row(serial: nat, deal: Deal)

  /** `.map((deal, index) => ...)` with the serial `index + 1`. */
  function NumberRows(shown: seq<Deal>): (rows: seq<Row>)
    ensures |rows| == |shown|
    ensures forall i :: 0 <= i < |rows| ==> rows[i].deal == shown[i]
  {
    seq(|shown|, i requires 0 <= i < |shown| => Row(i + 1, shown[i]))
  }

  /** The serials of the displayed rows run 1, 2, ..., n over the filtered list. */
  lemma SerialsAreConsecutive(deals: seq<Deal>, term: string)
    ensures var rows := NumberRows(Filter(deals, term));
      && (rows != [] ==> rows[0].serial == 1 && rows[|rows| - 1].serial == |rows|)
      && (forall i :: 0 < i < |rows| ==> rows[i].serial == rows[i - 1].serial + 1)
  {
  }

  /** The badge classes, in the order they are tested. */
  datatype StatusColor = HotColor | WonColor | WarmColor | ColdColor | OverdueColor | NeutralColor

  function ClassName(c: StatusColor): string
  {
    match c
    case HotColor => "bg-orange-50 text-orange-600 border-orange-200"
    case WonColor => "bg-green-50 text-green-600 border-green-200"
    case WarmColor => "bg-blue-50 text-blue-600 border-blue-200"
    case ColdColor => "bg-gray-50 text-gray-600 border-gray-200"
    case OverdueColor => "bg-red-50 text-red-600 border-red-200"
    case NeutralColor => "bg-slate-50 text-slate-600 border-slate-200"
  }

  /** `status?.toLowerCase() || ''`. */
  function LoweredStatus(status: Option<string>): (r: string)
  {
    if status.Some? then Lower(status.value) else ""
  }

  /**
   `getStatusColor`: the first keyword of hot, won, warm, cold, overdue found
   in the lowered status picks the class; no keyword (or no status) gives
   the neutral class.
   */
  function StatusColorOf(status: Option<string>): (c: StatusColor)
    ensures var s := LoweredStatus(status);
      && (c == HotColor <==> Contains(s, "hot"))
      && (c == WonColor <==> !Contains(s, "hot") && Contains(s, "won"))
      && (c == WarmColor <==> !Contains(s, "hot") && !Contains(s, "won") && Contains(s, "warm"))
      && (c == ColdColor <==> !Contains(s, "hot") && !Contains(s, "won") && !Contains(s, "warm")
                              && Contains(s, "cold"))
      && (c == OverdueColor <==> !Contains(s, "hot") && !Contains(s, "won") && !Contains(s, "warm")
                                 && !Contains(s, "cold") && Contains(s, "overdue"))
    ensures status.None? ==> c == NeutralColor
  {
    var s := LoweredStatus(status);
    if Contains(s, "hot") then HotColor
    else if Contains(s, "won") then WonColor
    else if Contains(s, "warm") then WarmColor
    else if Contains(s, "cold") then ColdColor
    else if Contains(s, "overdue") then OverdueColor
    else NeutralColor
  }

  /** The colour ignores ASCII case: lowering the status first changes nothing. */
  lemma StatusColorIgnoresCase(status: string)
    ensures StatusColorOf(Some(Lower(status))) == StatusColorOf(Some(status))
  {
    LowerIsIdempotent(status);
  }

  /** "Hot Won" contains both keywords; hot is tested first and wins. */
  lemma HotOutranksWon()
    ensures StatusColorOf(Some("Hot Won")) == HotColor
  {
    assert Lower("Hot Won") == "hot won";
    assert OccursAt("hot won", "hot", 0);
    ContainsIffOccurs("hot won", "hot");
  }

  /** The page's state. */
  datatype DealsPage = DealsPage(deals: seq<Deal>, loading: bool, error: Option<string>)

  /** A freshly mounted page: no deals, loading, no error. */
  function InitialPage(): (p: DealsPage)
    ensures p.deals == [] && p.loading && p.error.None?
  {
    DealsPage([], true, None)
  }

  /** What the list call produced: success (with optional data), a rejection, or a thrown error. */
  datatype ListResponse = Listed(data: Option<seq<Deal>>) | ListRejected(message: Option<string>) | ListThrew

  const FetchFailed: string := "Failed to fetch deals"
  const FetchCrashed: string := "An error occurred while fetching deals"

  /**
   `fetchDeals` from `setLoading(true)` to `finally`: success replaces the
   deals (absent data becomes no deals) and leaves the error as it was; a
   rejection or a thrown error sets a non-empty error and keeps the deals.
   Loading is off afterwards, and an error once set is never cleared.
   */
  function FetchDeals(p: DealsPage, response: ListResponse): (r: DealsPage)
    ensures !r.loading
    ensures response.Listed? ==> r.error == p.error
    ensures response.Listed? && response.data.Some? ==> r.deals == response.data.value
    ensures response.Listed? && response.data.None? ==> r.deals == []
    ensures !response.Listed? ==> r.deals == p.deals && r.error.Some? && r.error.value != ""
    ensures response.ListRejected? ==>
              if Truthy(response.message) then r.error == response.message
              else r.error == Some(FetchFailed)
    ensures response.ListThrew? ==> r.error == Some(FetchCrashed)
    ensures p.error.Some? ==> r.error.Some?
  {
    match response
    case Listed(data) =>
      p.(deals := if data.Some? then data.value else [], loading := false)
    case ListRejected(message) =>
      p.(error := Some(OrElse(message, FetchFailed)), loading := false)
    case ListThrew =>
      p.(error := Some(FetchCrashed), loading := false)
  }

  /** The page after a sequence of fetches, in order. */
  function FetchAll(p: DealsPage, responses: seq<ListResponse>): (r: DealsPage)
    decreases |responses|
  {
    if responses == [] then p
    else FetchAll(FetchDeals(p, responses[0]), responses[1..])
  }

  /** Once an error is set, no later fetch (successful or not) clears it. */
  lemma {:induction false} ErrorIsNeverCleared(p: DealsPage, responses: seq<ListResponse>)
    requires p.error.Some?
    ensures FetchAll(p, responses).error.Some?
    decreases |responses|
  {
    if responses != [] {
      ErrorIsNeverCleared(FetchDeals(p, responses[0]), responses[1..]);
    }
  }

  /** What the table body shows. */
  datatype Body = LoadingRow | ErrorRow(message: string) | NoDealsRow | DealRows(rows: seq<Row>)

  /**
   The table body: the spinner while loading, else the error when it is
   set, else the empty notice when no deals were fetched, else the
   numbered rows of the filtered deals.
   */
  function View(p: DealsPage, term: string): (b: Body)
    ensures b.LoadingRow? <==> p.loading
    ensures b.ErrorRow? <==> !p.loading && Truthy(p.error)
    ensures b.NoDealsRow? <==> !p.loading && !Truthy(p.error) && p.deals == []
    ensures b.DealRows? ==> b.rows == NumberRows(Filter(p.deals, term)) && |b.rows| <= |p.deals|
    ensures b.ErrorRow? ==> p.error == Some(b.message)
  {
    if p.loading then LoadingRow
    else if Truthy(p.error) then ErrorRow(p.error.value)
    else if |p.deals| == 0 then NoDealsRow
    else DealRows(NumberRows(Filter(p.deals, term)))
  }

  /** After a failed fetch, a later successful one still displays the old error. */
  lemma ErrorOutranksLaterSuccess(p: DealsPage, failure: ListResponse, data: Option<seq<Deal>>, term: string)
    requires !failure.Listed?
    ensures View(FetchDeals(FetchDeals(p, failure), Listed(data)), term).ErrorRow?
  {
  }

  /** The footer's "Showing n deals", shown when loaded and deals exist. */
  function FooterCount(p: DealsPage): (r: Option<nat>)
  {
    if !p.loading && |p.deals| > 0 then Some(|p.deals|) else None
  }

  /**
   The footer counts the fetched deals, not the displayed rows: it is never
   below the number of rows and exceeds it whenever the search hides a deal.
   */
  lemma FooterCountsUnfilteredDeals(p: DealsPage, term: string)
    requires FooterCount(p).Some?
    ensures FooterCount(p).value == |p.deals| >= |Filter(p.deals, term)|
    ensures (exists i :: 0 <= i < |p.deals| && !Matches(p.deals[i], term)) ==>
              FooterCount(p).value > |Filter(p.deals, term)|
  {
    var positions := FilterIsOrderedSubsequence(p.deals, term);
    if exists i :: 0 <= i < |p.deals| && !Matches(p.deals[i], term) {
      var i :| 0 <= i < |p.deals| && !Matches(p.deals[i], term);
      PositionsBelow(positions, |p.deals|, i);
    }
  }

  /** Strictly increasing positions below `n` number at most `n`. */
  lemma {:induction false} IncreasingBelow(positions: seq<nat>, n: nat)
    requires forall k :: 0 <= k < |positions| ==> positions[k] < n
    requires forall k, l :: 0 <= k < l < |positions| ==> positions[k] < positions[l]
    ensures |positions| <= n
    decreases |positions|
  {
    if positions != [] {
      var m := |positions| - 1;
      IncreasingBelow(positions[..m], positions[m]);
    }
  }

  /** Strictly increasing positions below `n` that skip some `i < n` number fewer than `n`. */
  lemma {:induction false} PositionsBelow(positions: seq<nat>, n: nat, i: nat)
    requires forall k :: 0 <= k < |positions| ==> positions[k] < n
    requires forall k, l :: 0 <= k < l < |positions| ==> positions[k] < positions[l]
    requires i < n && i !in positions
    ensures |positions| < n
    decreases |positions|
  {
    if positions != [] {
      var m := |positions| - 1;
      var front := positions[..m];
      assert i != positions[m];
      if i < positions[m] {
        assert i !in front by {
          assert forall k :: 0 <= k < m ==> front[k] == positions[k];
        }
        PositionsBelow(front, positions[m], i);
      } else {
        IncreasingBelow(front, positions[m]);
      }
    }
  }
}

=== FILE: js.dfy ===
/**
 This module models the handful of JavaScript value conventions the deal
 screens rely on: values that may be absent (`undefined`/`null`), and the
 "falsy" test behind `x || fallback`.
 */
module Js {

  /** A value that may be absent (`undefined` or `null` in the source). */
  datatype Option<+T> = None | Some(value: T)

  /** A string is truthy iff it is present and non-empty. */
  predicate Truthy(s: Option<string>)
  {
    s.Some? && s.value != ""
  }

  /** `s || fallback` for a string that may be absent. */
  function OrElse(s: Option<string>, fallback: string): (r: string)
    ensures Truthy(s) ==> Some(r) == s
    ensures !Truthy(s) ==> r == fallback
    ensures fallback != "" ==> r != ""
  {
    if Truthy(s) then s.value else fallback
  }

  /**
   An identifier read from browser storage: absent, a number or a string.
   `Absent`, `Num(0)` and `Str("")` are the falsy ones.
   */
  datatype IdValue = Absent | Num(n: int) | Str(s: string)
  {
    predicate IsTruthy()
    {
      match this
      case Absent => false
      case Num(n) => n != 0
      case Str(s) => s != ""
    }
  }

  /** `id || fallback` for an identifier with a numeric fallback. */
  function IdOr(id: IdValue, fallback: int): (r: IdValue)
    ensures id.IsTruthy() ==> r == id
    ensures !id.IsTruthy() ==> r == Num(fallback)
    ensures fallback != 0 ==> r.IsTruthy()
  {
    if id.IsTruthy() then id else Num(fallback)
  }
}

=== FILE: location.dfy ===
/**
 The state → district reference table and the lookup that fills the
 dependent "District" drop-downs of the Add Deal wizard. The table's
 contents come from a bundled document that is a parameter here.
 */
module Location {
  import opened Js

  datatype District = District(districtId: int, districtName: string)

  datatype StateEntry = StateEntry(stateId: int, stateName: string, districts: seq<District>)

  type LocationTable = seq<StateEntry>

  /**
   Entry `i` is the first one whose name is exactly `name`; at most one
   position can be first, so the lookup's answer is well defined.
   */
  predicate IsFirstMatch(table: LocationTable, name: string, i: int)
  {
    && 0 <= i < |table|
    && table[i].stateName == name
    && forall j :: 0 <= j < i ==> table[j].stateName != name
  }

  /** `states.find(s => s.stateName === name)`, returning the position found. */
  function FindState(table: LocationTable, name: string): (r: Option<nat>)
    ensures r.Some? ==> IsFirstMatch(table, name, r.value)
    ensures r.None? <==> forall j :: 0 <= j < |table| ==> table[j].stateName != name
    decreases |table|
  {
    if table == [] then None
    else if table[0].stateName == name then Some(0)
    else
      match FindState(table[1..], name)
      case None => None
      case Some(k) => Some(k + 1)
  }

  /**
   The districts offered for `state`: none while no state is chosen, the
   districts of the first entry named exactly `state`, and none when no
   entry has that name. No case folding or trimming takes place.
   */
  function DistrictsFor(table: LocationTable, state: string): (r: seq<District>)
    ensures state == "" ==> r == []
    ensures (forall j :: 0 <= j < |table| ==> table[j].stateName != state) ==> r == []
    ensures forall i :: state != "" && IsFirstMatch(table, state, i) ==> r == table[i].districts
  {
    if state == "" then []
    else
      match FindState(table, state)
      case None => []
      case Some(i) => table[i].districts
  }

  /**
   A non-empty district list implies the state was chosen and named exactly in
   the table. The converse fails: a listed state with no districts also gives [].
   */
  lemma NonEmptyDistrictsMeansKnownState(table: LocationTable, state: string)
    requires DistrictsFor(table, state) != []
    ensures state != ""
    ensures exists i :: IsFirstMatch(table, state, i) && table[i].districts == DistrictsFor(table, state)
  {
    var i :| IsFirstMatch(table, state, i) && FindState(table, state) == Some(i);
  }
}

=== FILE: text.dfy ===
/**
 String primitives used by the deal screens: `trim`, `toLowerCase` and
 `includes`, each given an independent characterisation.
 */
module Text {

  /**
   The characters `String.prototype.trim` strips: the ECMAScript WhiteSpace
   set (tab, vertical tab, form feed, space, no-break space, byte order mark
   and the Unicode space separators) and the four line terminators.
   */
  predicate IsSpace(c: char)
  {
    || c == '\t' || c == '\n' || c == '\U{000B}' || c == '\U{000C}' || c == '\r' || c == ' '
    || c == '\U{00A0}' || c == '\U{1680}' || ('\U{2000}' <= c <= '\U{200A}')
    || c == '\U{2028}' || c == '\U{2029}' || c == '\U{202F}' || c == '\U{205F}'
    || c == '\U{3000}' || c == '\U{FEFF}'
  }

  /** Every character of `s` is one that `trim` strips. */
  predicate AllSpace(s: string)
  {
    forall i :: 0 <= i < |s| ==> IsSpace(s[i])
  }

  /** `s` with its leading whitespace removed. */
  function TrimStart(s: string): (r: string)
    decreases |s|
  {
    if |s| > 0 && IsSpace(s[0]) then TrimStart(s[1..]) else s
  }

  /** `s` with its trailing whitespace removed. */
  function TrimEnd(s: string): (r: string)
    decreases |s|
  {
    if |s| > 0 && IsSpace(s[|s| - 1]) then TrimEnd(s[..|s| - 1]) else s
  }

  /** Trimming the start removes exactly the longest whitespace prefix. */
  lemma {:induction false} TrimStartSpec(s: string)
    ensures |TrimStart(s)| <= |s| && TrimStart(s) == s[|s| - |TrimStart(s)|..]
    ensures TrimStart(s) == [] || !IsSpace(TrimStart(s)[0])
    ensures AllSpace(s[..|s| - |TrimStart(s)|])
    decreases |s|
  {
    if |s| > 0 && IsSpace(s[0]) {
      TrimStartSpec(s[1..]);
      var k := |s| - |TrimStart(s)|;
      assert s[..k] == [s[0]] + s[1..][..k - 1];
    }
  }

  /** Trimming the end removes exactly the longest whitespace suffix. */
  lemma {:induction false} TrimEndSpec(s: string)
    ensures |TrimEnd(s)| <= |s| && TrimEnd(s) == s[..|TrimEnd(s)|]
    ensures TrimEnd(s) == [] || !IsSpace(TrimEnd(s)[|TrimEnd(s)| - 1])
    ensures AllSpace(s[|TrimEnd(s)|..])
    decreases |s|
  {
    if |s| > 0 && IsSpace(s[|s| - 1]) {
      TrimEndSpec(s[..|s| - 1]);
      var k := |TrimEnd(s)|;
      assert s[k..] == s[..|s| - 1][k..] + [s[|s| - 1]];
    }
  }

  /** `s.trim()`. */
  function Trim(s: string): (r: string)
  {
    TrimEnd(TrimStart(s))
  }

  /** `!s.trim()`: the trimmed string is empty. */
  predicate IsBlank(s: string)
  {
    Trim(s) == ""
  }

  /** `trim` leaves a contiguous slice of its input with whitespace only cut away. */
  lemma TrimIsSlice(s: string)
    ensures exists a, b ::
              (0 <= a <= b <= |s| && Trim(s) == s[a..b] && AllSpace(s[..a]) && AllSpace(s[b..]))
    ensures Trim(s) == [] || (!IsSpace(Trim(s)[0]) && !IsSpace(Trim(s)[|Trim(s)| - 1]))
  {
    var t := TrimStart(s);
    TrimStartSpec(s);
    TrimEndSpec(t);
    var a := |s| - |t|;
    var b := a + |TrimEnd(t)|;
    assert Trim(s) == s[a..b];
    assert s[b..] == t[|TrimEnd(t)|..];
    if Trim(s) != [] {
      assert Trim(s)[0] == t[0];
    }
  }

  /** A string is blank (trims to nothing) exactly when every character is whitespace. */
  lemma BlankIffAllSpace(s: string)
    ensures IsBlank(s) <==> AllSpace(s)
  {
    var t := TrimStart(s);
    TrimStartSpec(s);
    TrimEndSpec(t);
    assert t != [] ==> t[0] == s[|s| - |t|];
    if IsBlank(s) {
      assert t[0..] == t;
      assert t == [];
      forall i | 0 <= i < |s|
        ensures IsSpace(s[i])
      {
        assert s[i] == s[..|s|][i];
      }
    }
  }

  /** ASCII `toLowerCase` of one character; other characters are unchanged. */
  function ToLower(c: char): (r: char)
  {
    if 'A' <= c <= 'Z' then (c as int - 'A' as int + 'a' as int) as char else c
  }

  /** ASCII `s.toLowerCase()`. */
  function Lower(s: string): (r: string)
  {
    seq(|s|, i requires 0 <= i < |s| => ToLower(s[i]))
  }

  /** Lowering leaves no upper-case ASCII letter, and lowering twice changes nothing. */
  lemma LowerIsIdempotent(s: string)
    ensures forall i :: 0 <= i < |s| ==> !('A' <= Lower(s)[i] <= 'Z')
    ensures Lower(Lower(s)) == Lower(s)
  {
  }

  /** `needle` sits in `hay` starting at position `i`. */
  predicate OccursAt(hay: string, needle: string, i: int)
  {
    0 <= i && i + |needle| <= |hay| && hay[i..i + |needle|] == needle
  }

  /** `hay.includes(needle)`, by scanning start positions left to right. */
  predicate Contains(hay: string, needle: string)
    decreases |hay|
  {
    |needle| <= |hay| && (hay[..|needle|] == needle || Contains(hay[1..], needle))
  }

  /** The scan finds `needle` exactly when it occurs at some position of `hay`. */
  lemma {:induction false} ContainsIffOccurs(hay: string, needle: string)
    ensures Contains(hay, needle) <==> exists i :: OccursAt(hay, needle, i)
    decreases |hay|
  {
    if |needle| <= |hay| && hay[..|needle|] != needle {
      ContainsIffOccurs(hay[1..], needle);
      if Contains(hay[1..], needle) {
        var i :| OccursAt(hay[1..], needle, i);
        assert hay[1..][i..i + |needle|] == hay[i + 1..i + 1 + |needle|];
        assert OccursAt(hay, needle, i + 1);
      }
      if exists i :: OccursAt(hay, needle, i) {
        var i :| OccursAt(hay, needle, i);
        assert i != 0;
        assert hay[1..][i - 1..i - 1 + |needle|] == hay[i..i + |needle|];
        assert OccursAt(hay[1..], needle, i - 1);
      }
    } else if |needle| <= |hay| {
      assert OccursAt(hay, needle, 0);
    }
  }

  /** Every string includes the empty string. */
  lemma ContainsEmpty(hay: string)
    ensures Contains(hay, "")
  {
    assert hay[..0] == "";
  }
}
